=== FILE: README.md ===
# Pole-zero archive metadata, modelled in Dafny

This project models the metadata core of `modules/pz_archive.py`. That module
reads "enhanced" SAC pole-zero files and indexes their channel epochs.

- `Channel.spans` decides whether a channel epoch's validity window admits a
  query. The query is no argument, one instant, or an interval.
- `read_enhanced_sac_pz` scans a file's comment lines for `label: value`
  pairs. It builds a `Channel` from fourteen recognised labels, all or nothing.
  Otherwise it raises `EnhancedSacPzError` naming the file.
- `MetaData` is the index:
  - `add_channel` appends an epoch to the list of its network/station/location/channel code;
  - `get_pyrocko_response` picks the single epoch spanning a query, or reports
    that none or several do, or that the input unit does not match;
  - `get_pyrocko_stations` groups the spanning channels by station and
    summarises each group by its mean coordinates;
  - `nslc_code_list` lists the codes.

Modules, one per file:

| file | module | what it holds |
|---|---|---|
| `wrappers.dfy` | `Wrappers` | `Option` and `Result` |
| `channel.dfy` | `Channels` | the `Channel` record, `Query`, `Spans`, and the window semantics |
| `text.dfy` | `Text` | split-on-first-colon, ASCII `strip`, `lower`, `startswith` |
| `enhanced_sac_pz.dfy` | `EnhancedSacPz` | the comment scan and the all-or-nothing channel construction |
| `metadata.dfy` | `Index` | `MetaData`, `AddChannel`, `NslcCodeList`, `GetPyrockoResponse` |
| `stations.dfy` | `Summaries` | grouping by station, means, the station loop as written and as intended |

Modelling choices:

- Floating-point numbers are `real`. Timestamps are whole seconds (`int`). An
  unset window bound is `None`.
- The module targets Python 2, where `str` is a byte string. So `strip()`
  removes the six ASCII whitespace characters and `lower()` folds only `A`–`Z`.
- `float(...)` and `util.str_to_time(...)` are library code. They are passed
  in as the two total functions of `Conversions`, which return `None` where
  the library raises.
- `pz.read_sac_zpk` is passed in as its result `SacZpk`: zeros, poles,
  constant and comment lines.
- Dictionary iteration order is not defined by the code. So the order of
  `self._content.keys()` (`keyOrder`) and the order of `by_nsl.iteritems()`
  (`nslOrder`) are parameters. Like dictionary keys, each lists every code or
  group exactly once (`Distinct`), and the index is one that `add_channel`
  built (`Valid`). Results are stated relative to these orders: which groups
  exist and what they hold does not depend on them, and the position of a
  station in the result is its group's position in `nslOrder`. Nothing is
  claimed about which order Python picks.
- The scan assigns a line's value to every key that the lower-cased label
  starts with. It does not stop at the first match. No recognised key is a
  prefix of another (`KeysPrefixFree`), so at most one key ever matches
  (`AtMostOneKey`). Trying every key therefore stores the same values as
  stopping at the first match.
- A `timespan` pair may have a `None` end (an open timespan). An unset channel
  bound is unbounded (see `Channel`), but the code compares a `None` timespan
  end with numbers, and Python 2 orders `None` below every number. The model
  follows the code (`AtLeast`). An open start is unbounded below, since
  `tmax >= None` always holds (`SpansOpenStart`). An open end matches only
  channels with no start, since `None >= tmin` is false (`SpansOpenEnd`).
  Every parsed channel has a start (`ParsedWindowIsBounded`), so a timespan
  open at the end finds none of them (`OpenEndMissesStartedChannels`).
- The code does not check that the four codes are non-empty. It also does not
  check that a window's start is at most its end. The model follows the code:
  `WellOrdered` is a hypothesis of the lemmas that need it, not an invariant.
  `SpansIntervalInvertedWindow` shows what an inverted window does.

## Model

| member | source | states |
|---|---|---|
| Channels.Spans | modules/pz_archive.py:24-37 | with no time argument every channel spans; for an instant, spanning is exactly lying in the window, both bounds inclusive and an unset bound open |
| Channels.SpansAnytime | modules/pz_archive.py:24-26 | with no time argument every channel is a candidate |
| Channels.SpansInstant | modules/pz_archive.py:27-31 | a channel with no bounds spans every instant |
| Channels.SpansOpenStart | modules/pz_archive.py:33-37 | a timespan with a `None` start is spanned exactly when the window's start is unset or at most the end; for an ordered window, exactly when an instant at or before the end lies in the window |
| Channels.SpansOpenEnd | modules/pz_archive.py:33-37 | a timespan with a `None` end is spanned exactly by a channel with no start whose end, if set, is at least the timespan's start; no channel with a start spans it |
| Channels.SpansOpenBoth | modules/pz_archive.py:33-37 | a timespan with both ends `None` is spanned exactly by the channels with no start |
| Channels.SpansInstantInInterval | modules/pz_archive.py:24-37 | a channel spanning some instant of [a, b] also spans the interval (a, b) |
| Channels.SpansIntervalIsIntersection | modules/pz_archive.py:33-37 | for an ordered interval and an ordered window, an interval query holds exactly when some instant of the interval lies in the window (overlap, not containment) |
| Channels.SpansIntervalNotContainment | modules/pz_archive.py:33-37 | a window strictly inside the interval matches, though neither interval end is inside the window |
| Channels.SpansIntervalInvertedWindow | modules/pz_archive.py:24-37 | a window with start after end matches an interval reaching across it, yet matches no instant |
| Text.SplitOnce | modules/pz_archive.py:47-48 | `split(':', 1)` gives one part, the whole line, exactly when there is no colon; otherwise two parts around the first colon |
| Text.SplitOnceAtFirst | modules/pz_archive.py:47 | when the head has no colon, the split gives exactly head and the rest, later colons included |
| Text.Strip | modules/pz_archive.py:49 | the result is the contiguous middle of the input, with no stripped character at either end and only stripped characters removed around it |
| Text.StripPadded | modules/pz_archive.py:49 | padding of stripped characters around an unpadded core strips back to the core |
| Text.StripIdempotent | modules/pz_archive.py:54 | stripping twice is stripping once |
| EnhancedSacPz.LabelMatches | modules/pz_archive.py:53 | a label matches a key exactly when the key is no longer than the label and the label, lower-cased, agrees with the key at every position of the key |
| Text.StartsWithComparable | modules/pz_archive.py:53 | two prefixes of one string, the shorter is a prefix of the longer |
| EnhancedSacPz.KeysPrefixFree | modules/pz_archive.py:50-52 | no recognised label key is a prefix of another one |
| EnhancedSacPz.AtMostOneKey | modules/pz_archive.py:50-54 | a label matches at most one recognised key, so assigning every match equals first-match-wins |
| EnhancedSacPz.LabelValue | modules/pz_archive.py:47-54 | a line yields a label/value pair exactly when it contains a colon |
| EnhancedSacPz.LabelValueFirstColon | modules/pz_archive.py:47-54 | for `tag:value` with a colon-free tag, the label is the tag stripped of `*`, space and tab, and the value is the rest stripped of whitespace |
| EnhancedSacPz.RecordKeys | modules/pz_archive.py:50-54 | after the key loop, each recognised key the label starts with maps to the value; every other entry is unchanged |
| EnhancedSacPz.ScanLine | modules/pz_archive.py:46-54 | a colon-free line leaves the dictionary unchanged; otherwise exactly the keys its label matches get its value |
| EnhancedSacPz.ScanComments | modules/pz_archive.py:45-54 | the scanned dictionary has only recognised keys |
| EnhancedSacPz.ScanCommentsStep | modules/pz_archive.py:46-54 | scanning one more line changes a key only when that line carries it |
| EnhancedSacPz.ScanCommentsPresent | modules/pz_archive.py:45-54 | a recognised key is present after the scan exactly when some comment line carries it |
| EnhancedSacPz.ScanCommentsLastMatch | modules/pz_archive.py:45-54 | last match wins: a key holds the value of the last line that carries it |
| EnhancedSacPz.LookupFields | modules/pz_archive.py:58-73 | the fourteen look-ups succeed exactly when every recognised key is present, and return those values |
| EnhancedSacPz.ConvertFields | modules/pz_archive.py:59-71 | the channel is built exactly when both timestamps and all six numbers convert; each field is its label's value or that value's conversion |
| EnhancedSacPz.ReadEnhancedSacPz | modules/pz_archive.py:43-75 | success exactly when all labels are present and convert, with every field taken from the scan and the response built from the file's zeros, poles and constant; any failure is one `EnhancedSacPzError` naming the file |
| EnhancedSacPz.MissingLabelFails | modules/pz_archive.py:58-73 | a file where no line carries some recognised label fails, whichever label it is |
| EnhancedSacPz.ParsedWindowIsBounded | modules/pz_archive.py:61-62 | a parsed channel has both bounds of its validity window set |
| Index.AddChannel | modules/pz_archive.py:82-87 | the channel goes to the end of its code's list, which is created if missing; every other list is unchanged; the codes grow by exactly this one; validity is kept |
| Index.AddChannelHoldsExactly | modules/pz_archive.py:82-87 | one `add_channel` keeps the index equal to the per-code partition of the channels added, in order |
| Index.AddChannelsPartitions | modules/pz_archive.py:79-87 | an index built from empty holds, for every code, exactly its channels in the order added, and a code is present exactly when one was added |
| Index.AddChannelsFromEmpty | modules/pz_archive.py:79-87 | each code's list after building from empty is that code's channels, in order; a code is present exactly when some channel has it |
| Index.AddChannelsValid | modules/pz_archive.py:82-87 | adding channels keeps every list non-empty and holding only channels of its own code |
| Index.NslcCodeList | modules/pz_archive.py:174-176 | the list holds exactly the codes of the index, each once |
| Index.SelectQuery | modules/pz_archive.py:92-96 | an instant query exactly when `time` is given, at that time; an interval query exactly when only `timespan` is given, with its two ends; no time argument exactly when neither is given |
| Index.Candidates | modules/pz_archive.py:98 | the candidates are exactly the stored channels that span the query |
| Index.CandidatesCount | modules/pz_archive.py:98 | the filter keeps every spanning channel exactly as often as it is stored, and drops every other one |
| Index.CandidatesNone | modules/pz_archive.py:98-101 | there are no candidates exactly when no stored channel spans the query |
| Index.AmbiguousHasManyCandidates | modules/pz_archive.py:98-103 | two stored channels spanning the query give at least two candidates |
| Index.ManyCandidatesAreAmbiguous | modules/pz_archive.py:98-103 | two or more candidates come from two distinct stored positions that span the query |
| Index.CandidatesMany | modules/pz_archive.py:98-103 | two or more candidates exactly when two stored channels span the query |
| Index.CandidatesOne | modules/pz_archive.py:98-105 | a single candidate is the one stored channel that spans the query |
| Index.GetPyrockoResponse | modules/pz_archive.py:89-112 | no spanning channel gives `NoResponseInformation`; two or more give `MultipleResponseInformation`; exactly one gives its response, unless a non-empty requested input unit differs from the channel's, which gives `NoResponseInformation` carrying the requested and the channel's input units |
| Index.TimeTakesPrecedence | modules/pz_archive.py:92-96 | when both `time` and `timespan` are given, `timespan` is ignored |
| Index.UnknownCodeHasNoResponse | modules/pz_archive.py:98-101 | a code never added has no response information, whatever the query |
| Index.OpenEndMissesStartedChannels | modules/pz_archive.py:92-101 | when every stored channel of the code has a start, a timespan open at the end gives `NoResponseInformation` |
| Index.OpenStartLookup | modules/pz_archive.py:92-112 | one bounded epoch answers a timespan open at the start with its response exactly when its start is at most the end, and with `NoResponseInformation` otherwise |
| Index.OneEpochLookup | modules/pz_archive.py:89-112 | one bounded epoch answers an instant in its window with its response, and one outside with `NoResponseInformation` |
| Index.DisjointEpochsLookup | modules/pz_archive.py:89-112 | with two disjoint epochs of one code, an instant in either window gets that epoch's response, and an instant between the windows gets `NoResponseInformation` |
| Index.OverlappingEpochsLookup | modules/pz_archive.py:98-103 | two epochs of one code that both hold the instant give `MultipleResponseInformation` |
| Summaries.AddToGroup | modules/pz_archive.py:125-130 | the station's group is extended by the channels; other groups are unchanged; a group is created only with a member |
| Summaries.GroupByStation | modules/pz_archive.py:123-130 | every group created has at least one member |
| Summaries.SpanningInOrder | modules/pz_archive.py:124-127 | the visited channels are exactly the stored channels, under any listed code, that span the query |
| Summaries.GroupByStationPartitions | modules/pz_archive.py:123-130 | each group is exactly the spanning channels of its station, in visiting order, and a group exists exactly when it has a member |
| Summaries.SpanningChannelGroup | modules/pz_archive.py:123-130 | a stored channel is in its station's group exactly when it spans the query, and it is in no other group |
| Summaries.OfStationCount | modules/pz_archive.py:125-130 | selecting one station's channels keeps each of its channels as often as it occurs and drops every channel of another station |
| Summaries.SpanningInOrderCount | modules/pz_archive.py:124-127 | visiting each code once, a channel is visited exactly as often as it is stored when its code is visited and it spans the query, and never otherwise |
| Summaries.GroupsOfIndex | modules/pz_archive.py:117-130 | for a valid index whose codes are each visited once, every group holds channels of its own station only, and a channel is in its station's group exactly as often as it is stored when it spans the query, and not at all otherwise |
| Summaries.Consistent | modules/pz_archive.py:134-140 | a group is consistent exactly when its latitudes, longitudes, depths and elevations are each all equal |
| Summaries.MeanOfSame | modules/pz_archive.py:164-169 | the mean of identical values is that value |
| Summaries.ConsistentMeans | modules/pz_archive.py:134-169 | for a consistent group, the mean latitude, longitude, depth and elevation are the values every member has |
| Summaries.Summarize | modules/pz_archive.py:157-170 | a station carries its group's codes and one entry per member channel, with that channel's code, azimuth and dip; a consistent group's coordinates are those every member shares |
| Summaries.StationsAsWritten | modules/pz_archive.py:132-172 | as written, every group yields exactly one station, at its position in the iteration order, and that station is the group's summary |
| Summaries.AsWrittenIgnoresPolicy | modules/pz_archive.py:140-155 | as written, the `inconsistencies` argument has no effect on the result |
| Summaries.Stations | modules/pz_archive.py:132-172 | as intended, the call fails exactly when the policy is `'raise'` and some listed group is inconsistent |
| Summaries.StationsFailsAtFirst | modules/pz_archive.py:142-146 | a failure names the first inconsistent group in iteration order |
| Summaries.StationsKeepsListed | modules/pz_archive.py:148-170 | on success, every group the policy keeps is summarised in the result |
| Summaries.StationsOtherPolicyKeepsAll | modules/pz_archive.py:132-172 | under a policy other than `'raise'` or `'warn'`, the call succeeds with one station per group |
| Summaries.StationsSummariseTheirGroups | modules/pz_archive.py:157-170 | every station produced is the summary of a listed group it names, and that group is consistent unless the policy keeps inconsistent groups |
| Summaries.PrependName | modules/pz_archive.py:164-170 | putting in front a station whose group no later station names keeps the stations' groups distinct |
| Summaries.StationsDistinctNames | modules/pz_archive.py:133-170 | when each group is iterated once, no two stations of a successful result name the same group |
| Summaries.ListedAllGroups | modules/pz_archive.py:133 | iterating over all the non-empty groups visits each one |
| Summaries.ListedInconsistency | modules/pz_archive.py:133-140 | an inconsistent group is met during iteration exactly when one exists |
| Summaries.StationsOverGroups | modules/pz_archive.py:132-172 | iterating once over all the groups, the loop fails exactly under `'raise'` with an inconsistent group, and the error names an existing inconsistent group; otherwise every station summarises its own kept group, every group the policy keeps has its station, and no group has two |
| Summaries.GetPyrockoStations | modules/pz_archive.py:114-172 | as intended: the groups hold exactly the spanning channels of the index, each under its station, as often as stored; the call fails exactly under `'raise'` when some group's coordinates disagree, and the error names such a group; otherwise each station summarises its own group, which is consistent unless the policy keeps inconsistent groups, every kept group has exactly one station |
| Summaries.AsWrittenOverGroups | modules/pz_archive.py:132-172 | as written, iterating once over all the groups: every station is its group's summary, every group has its station, and no group has two |
| Summaries.GetPyrockoStationsAsWritten | modules/pz_archive.py:114-172 | as written: the groups hold exactly the spanning channels of the index; every group has exactly one station, its summary, whatever its coordinates |
| Summaries.InconsistentGroupUnderRaise | modules/pz_archive.py:140-155 | two channels of one station at elevations 0 and 2 under `'raise'`: as written, one station at elevation 1; as intended, `InconsistentChannelLocations` |

## Left out

- `load`: directory listing and file I/O. The model takes one parsed file at a time.
- `pz.read_sac_zpk`: parsing the pole-zero body is library code. Its result is a parameter.
- `trace.PoleZeroResponse`: only its three inputs are recorded.
- `float` and `util.str_to_time`: library code. They are passed in as total functions. The exact timestamp format they accept is not modelled.
- Floating point: NaN, infinities, rounding, and `num.mean`'s floating sum are not modelled. Numbers are reals.
- Fractional timestamps are not modelled. Time is in whole seconds.
- `spans` with three or more arguments, and a `timespan` that is not a pair: both fall outside the three query shapes.
- Error messages, logging (`logger.warn`), and the message formatting at lines 143-153. That formatting uses names the module never defines (`info`, `logger`). Only the error kind and what it carries are modelled: the code, or for a unit mismatch the requested and the channel's input units.
- The `Channel` constructor's guts type checks are not modelled: construction from well-typed fields cannot fail.
- The order of `self._content.keys()` and `by_nsl.iteritems()`: given as parameters. Results are stated relative to these orders. Nothing is claimed about which order Python picks.
- Summaries.GetPyrockoStations: the result order is the parameter order of the groups, not the order in which groups are first met. An unrecognised policy value is treated like any value other than `'raise'` and `'warn'`, as the code's branches do. It is not rejected.
- The code checks neither non-empty codes nor a start at most the end. So neither is an invariant of the model.

## Findings

| source | as written | input that shows it | evidently intended | confidence | as-written member | corrected member |
|---|---|---|---|---|---|---|
| modules/pz_archive.py:140-155 | the consistency test is assigned to `inconsistencies`, overwriting the policy argument with a boolean, so `== 'raise'` and `== 'warn'` never hold and every group yields a station at its mean coordinates | `inconsistencies='raise'` with channels `XX.STA..HHZ` at elevation 0 and `XX.STA..HHN` at elevation 2 | raise `InconsistentChannelLocations` under `'raise'`, omit the group under `'warn'` | high; not executed | Summaries.StationsAsWritten (exhibited by Summaries.InconsistentGroupUnderRaise) | Summaries.Stations |

=== FILE: channel.dfy ===
/**
 The `Channel` record of one calibration epoch and its validity-window
 predicate `spans`.
 */
module Channels {
  import opened Wrappers

  /** Network, station, location and channel codes. */
  type Nslc = (string, string, string, string)

  datatype Complex = Complex(re: real, im: real)

  /** The pole-zero response built from the file body; opaque to this model. */
  datatype Response = PoleZeroResponse(zeros: seq<Complex>, poles: seq<Complex>, constant: real)

  /** One channel epoch. Timestamps are whole seconds; an unset bound is unbounded. */
  datatype Channel = Channel(
    nslc: Nslc,
    tmin: Option<int>,
    tmax: Option<int>,
    lat: real,
    lon: real,
    elevation: real,
    depth: real,
    dip: real,
    azimuth: real,
    inputUnit: string,
    outputUnit: string,
    response: Response)

  /** A `timespan` keyword argument: a pair whose ends may each be `None`. */
  type Timespan = (Option<int>, Option<int>)

  /**
   The time constraint handed to `spans`: no argument, one instant, or a pair
   whose ends may each be `None` (an open timespan).
   */
  datatype Query = Anytime | At(t: int) | Between(a: Option<int>, b: Option<int>)

  /** An unset lower bound, or one at or below `t`. */
  predicate BelowOrUnset(bound: Option<int>, t: int) {
    bound.None? || bound.value <= t
  }

  /** An unset upper bound, or one at or above `t`. */
  predicate AboveOrUnset(bound: Option<int>, t: int) {
    bound.None? || t <= bound.value
  }

  /** Python 2's `x >= y`, where `None` orders below every number and equals itself. */
  predicate AtLeast(x: Option<int>, y: Option<int>) {
    y.None? || (x.Some? && x.value >= y.value)
  }

  /** Reference semantics: the instant `t` lies inside the channel's validity window. */
  ghost predicate InWindow(c: Channel, t: int) {
    (c.tmin.Some? ==> c.tmin.value <= t) && (c.tmax.Some? ==> t <= c.tmax.value)
  }

  /**
   `Channel.spans`: the channel's validity window admits the query. Without a
   query every channel does, and an instant is admitted exactly when it lies in
   the window; `SpansIntervalIsIntersection` characterises the interval case.
   */
  predicate Spans(c: Channel, q: Query)
    ensures q.Anytime? ==> Spans(c, q)
    ensures q.At? ==> (Spans(c, q) <==> InWindow(c, q.t))
  {
    match q
    case Anytime => true
    case At(t) => BelowOrUnset(c.tmin, t) && AboveOrUnset(c.tmax, t)
    case Between(a, b) => (c.tmin.None? || AtLeast(b, c.tmin)) && (c.tmax.None? || AtLeast(c.tmax, a))
  }

  /** A window whose bounds, when both are set, are in order. */
  predicate WellOrdered(c: Channel) {
    c.tmin.Some? && c.tmax.Some? ==> c.tmin.value <= c.tmax.value
  }

  /** Without a query every channel is a candidate. */
  lemma SpansAnytime(c: Channel)
    ensures Spans(c, Anytime)
  {
  }

  /** A channel with no bounds spans every instant. */
  lemma SpansInstant(c: Channel, t: int)
    ensures c.tmin.None? && c.tmax.None? ==> Spans(c, At(t))
  {
  }

  /** A channel that spans some instant of `[a, b]` spans the interval `(a, b)`. */
  lemma SpansInstantInInterval(c: Channel, t: int, a: int, b: int)
    requires a <= t <= b
    requires Spans(c, At(t))
    ensures Spans(c, Between(Some(a), Some(b)))
  {
  }

  /**
   An interval query tests intersection, not containment: for an ordered
   interval and an ordered window, the channel spans `(a, b)` exactly when
   some instant of `[a, b]` lies in its window.
   */
  lemma SpansIntervalIsIntersection(c: Channel, a: int, b: int)
    requires a <= b
    requires WellOrdered(c)
    ensures Spans(c, Between(Some(a), Some(b))) <==> exists t :: a <= t <= b && InWindow(c, t)
  {
    if Spans(c, Between(Some(a), Some(b))) {
      var t := if c.tmin.Some? && c.tmin.value > a then c.tmin.value else a;
      assert a <= t <= b && InWindow(c, t);
    }
  }

  /** An interval query does not demand containment: a window inside the query also matches. */
  lemma SpansIntervalNotContainment(c: Channel, a: int, b: int)
    requires c.tmin == Some(a + 1) && c.tmax == Some(b - 1)
    requires a + 1 <= b - 1
    ensures Spans(c, Between(Some(a), Some(b)))
    ensures !InWindow(c, a) && !InWindow(c, b)
  {
  }

  /** An inverted window still matches an interval that reaches across it, though no instant does. */
  lemma SpansIntervalInvertedWindow(c: Channel)
    requires c.tmin == Some(5) && c.tmax == Some(3)
    ensures Spans(c, Between(Some(0), Some(10)))
    ensures forall t :: !Spans(c, At(t))
  {
  }

  /**
   A timespan without a start is unbounded below: `tmax >= None` always holds,
   so only the window's start is compared with the end of the timespan. For an
   ordered window it is exactly an instant at or before `b` lying in the window.
   */
  lemma SpansOpenStart(c: Channel, b: int)
    ensures Spans(c, Between(None, Some(b))) <==> BelowOrUnset(c.tmin, b)
    ensures WellOrdered(c) ==> (Spans(c, Between(None, Some(b))) <==> exists t :: t <= b && InWindow(c, t))
  {
    if WellOrdered(c) && Spans(c, Between(None, Some(b))) {
      var t := if c.tmin.Some? then c.tmin.value else if c.tmax.Some? && c.tmax.value < b then c.tmax.value else b;
      assert t <= b && InWindow(c, t);
    }
  }

  /**
   A timespan without an end is not unbounded above: `None >= tmin` is false
   for a set start, so only a channel with no start can span it. A channel with
   a start spans no such timespan, even one whose window holds every later instant.
   */
  lemma SpansOpenEnd(c: Channel, a: int)
    ensures Spans(c, Between(Some(a), None)) <==> c.tmin.None? && AboveOrUnset(c.tmax, a)
    ensures c.tmin.Some? ==> !Spans(c, Between(Some(a), None))
  {
  }

  /** A timespan open at both ends is spanned exactly by the channels with no start. */
  lemma SpansOpenBoth(c: Channel)
    ensures Spans(c, Between(None, None)) <==> c.tmin.None?
  {
  }
}

=== FILE: enhanced_sac_pz.dfy ===
/**
 `read_enhanced_sac_pz`: the comment block of a SAC pole-zero file is scanned
 for `label: value` lines, and a `Channel` is built from the fourteen
 recognised labels, all or nothing.
 */
module EnhancedSacPz {
  import opened Wrappers
  import opened Text
  import opened Channels

  /** The recognised labels, in the order the scan tries them. */
  const Keys: seq<string> := [
    "network", "station", "location", "channel", "start", "end",
    "latitude", "longitude", "depth", "elevation", "dip", "azimuth",
    "input unit", "output unit"]

  /** The characters stripped from both ends of a label. */
  const LabelPadding: set<char> := {'*', ' ', '\t'}

  /** Library conversions, passed in: `float(...)` and `util.str_to_time(..., '%Y-%m-%dT%H:%M:%S')`. */
  datatype Conversions = Conversions(toFloat: string -> Option<real>, toTime: string -> Option<int>)

  /** What `pz.read_sac_zpk(..., get_comments=True)` yields for one file. */
  datatype SacZpk = SacZpk(zeros: seq<Complex>, poles: seq<Complex>, constant: real, comments: seq<string>)

  /** Raised when the comments do not carry every required field; names the file. */
  datatype EnhancedSacPzError = EnhancedSacPzError(filename: string)

  /** Two distinct keys already differ within their first four characters. */
  predicate DifferEarly(p: string, q: string)
    requires |p| >= 3 && |q| >= 3
  {
    p[0] != q[0] || p[1] != q[1] || p[2] != q[2] || (|p| > 3 && |q| > 3 && p[3] != q[3])
  }

  /** The key at position `i` differs early from every key after it. */
  lemma KeyDiffersFromLater(i: nat)
    requires i < |Keys|
    ensures forall j :: i < j < |Keys| ==> |Keys[i]| >= 3 && |Keys[j]| >= 3 && DifferEarly(Keys[i], Keys[j])
  {
  }

  /** No recognised key is a prefix of another one. */
  lemma KeysPrefixFree()
    ensures forall i, j :: 0 <= i < |Keys| && 0 <= j < |Keys| && i != j ==> !StartsWith(Keys[j], Keys[i])
  {
    assert forall i :: 0 <= i < |Keys| ==> |Keys[i]| >= 3;
    forall i, j | 0 <= i < |Keys| && 0 <= j < |Keys| && i != j
      ensures !StartsWith(Keys[j], Keys[i])
    {
      var p, q := Keys[i], Keys[j];
      if i < j {
        KeyDiffersFromLater(i);
        assert DifferEarly(p, q);
      } else {
        KeyDiffersFromLater(j);
        assert DifferEarly(q, p);
      }
      if |p| <= |q| {
        assert q[..|p|][0] == q[0] && q[..|p|][1] == q[1] && q[..|p|][2] == q[2];
        if |p| > 3 {
          assert q[..|p|][3] == q[3];
        }
      }
    }
  }

  /**
   A label matches at most one recognised key, so trying every key (as the scan
   does) and stopping at the first match store the same value.
   */
  lemma AtMostOneKey(tag: string, k1: string, k2: string)
    requires k1 in Keys && k2 in Keys
    requires LabelMatches(tag, k1) && LabelMatches(tag, k2)
    ensures k1 == k2
  {
    KeysPrefixFree();
    var i :| 0 <= i < |Keys| && Keys[i] == k1;
    var j :| 0 <= j < |Keys| && Keys[j] == k2;
    if |k1| <= |k2| {
      StartsWithComparable(Lower(tag), k1, k2);
    } else {
      StartsWithComparable(Lower(tag), k2, k1);
    }
  }

  /** The value stored under a key, if any. */
  function Lookup(d: map<string, string>, k: string): Option<string> {
    if k in d then Some(d[k]) else None
  }

  /** The stripped label and value of a comment line, or `None` when the line has no colon. */
  function LabelValue(line: string): (r: Option<(string, string)>)
    ensures r.None? <==> ':' !in line
  {
    var toks := SplitOnce(line, ':');
    if |toks| == 2 then Some((Strip(toks[0], LabelPadding), Strip(toks[1], Whitespace))) else None
  }

  /** A stripped label matches a key when its lower-cased form starts with the key. */
  predicate LabelMatches(tag: string, k: string)
    ensures LabelMatches(tag, k) <==> |k| <= |tag| && forall i :: 0 <= i < |k| ==> LowerChar(tag[i]) == k[i]
  {
    StartsWith(Lower(tag), k)
  }

  /** The comment line carries a value for key `k`. */
  predicate LineSets(line: string, k: string) {
    var lv := LabelValue(line);
    lv.Some? && LabelMatches(lv.value.0, k)
  }

  /** The inner loop over the keys for one line: every key the label starts with gets `value`. */
  function RecordKeys(d: map<string, string>, keys: seq<string>, tag: string, value: string): (r: map<string, string>)
    ensures forall k {:trigger Lookup(r, k)} ::
              Lookup(r, k) == if k in keys && LabelMatches(tag, k) then Some(value) else Lookup(d, k)
    decreases |keys|
  {
    if |keys| == 0 then d
    else
      var d' := if LabelMatches(tag, keys[0]) then d[keys[0] := value] else d;
      RecordKeys(d', keys[1..], tag, value)
  }

  /** One iteration of the scan over the comment lines, trying each of `keys`. */
  function ScanLine(keys: seq<string>, d: map<string, string>, line: string): (r: map<string, string>)
    ensures ':' !in line ==> r == d
    ensures forall k {:trigger Lookup(r, k)} ::
              Lookup(r, k) == if k in keys && LineSets(line, k) then Some(LabelValue(line).value.1) else Lookup(d, k)
  {
    match LabelValue(line)
    case None => d
    case Some((tag, value)) => RecordKeys(d, keys, tag, value)
  }

  /** The map `d` after scanning all comment lines in order against `keys`. */
  function ScanComments(keys: seq<string>, comments: seq<string>): (d: map<string, string>)
    ensures forall k {:trigger Lookup(d, k)} :: Lookup(d, k).Some? ==> k in keys
    decreases |comments|
  {
    if |comments| == 0 then map[]
    else ScanLine(keys, ScanComments(keys, comments[..|comments| - 1]), comments[|comments| - 1])
  }

  /** Only the first colon splits: the value keeps any later colons and is stripped of whitespace. */
  lemma LabelValueFirstColon(tag: string, value: string)
    requires ':' !in tag
    ensures LabelValue(tag + ":" + value) == Some((Strip(tag, LabelPadding), Strip(value, Whitespace)))
  {
    SplitOnceAtFirst(tag, ':', value);
  }

  /** Scanning one more line changes a key only when that line carries it. */
  lemma ScanCommentsStep(keys: seq<string>, comments: seq<string>, k: string)
    requires |comments| > 0
    ensures var n := |comments| - 1;
      Lookup(ScanComments(keys, comments), k)
      == if k in keys && LineSets(comments[n], k) then Some(LabelValue(comments[n]).value.1)
         else Lookup(ScanComments(keys, comments[..n]), k)
  {
  }

  /** A recognised key is present after the scan exactly when some line carries it. */
  lemma {:induction false} ScanCommentsPresent(keys: seq<string>, comments: seq<string>, k: string)
    requires k in keys
    ensures Lookup(ScanComments(keys, comments), k).Some? <==> exists i :: 0 <= i < |comments| && LineSets(comments[i], k)
    decreases |comments|
  {
    if |comments| > 0 {
      var n := |comments| - 1;
      var init := comments[..n];
      ScanCommentsPresent(keys, init, k);
      ScanCommentsStep(keys, comments, k);
      if LineSets(comments[n], k) {
        assert 0 <= n < |comments| && LineSets(comments[n], k);
      } else {
        if exists i :: 0 <= i < |comments| && LineSets(comments[i], k) {
          var i :| 0 <= i < |comments| && LineSets(comments[i], k);
          assert i != n;
          assert init[i] == comments[i];
          assert LineSets(init[i], k);
        }
        if exists i :: 0 <= i < n && LineSets(init[i], k) {
          var i :| 0 <= i < n && LineSets(init[i], k);
          assert comments[i] == init[i];
          assert LineSets(comments[i], k);
        }
      }
    }
  }

  /** Last match wins: a key holds the value of the last line that carries it. */
  lemma {:induction false} ScanCommentsLastMatch(keys: seq<string>, comments: seq<string>, k: string, i: int)
    requires k in keys
    requires 0 <= i < |comments| && LineSets(comments[i], k)
    requires forall j :: i < j < |comments| ==> !LineSets(comments[j], k)
    ensures Lookup(ScanComments(keys, comments), k) == Some(LabelValue(comments[i]).value.1)
    decreases |comments|
  {
    var n := |comments| - 1;
    var init := comments[..n];
    ScanCommentsStep(keys, comments, k);
    if i < n {
      assert !LineSets(comments[n], k);
      assert init[i] == comments[i];
      forall j | i < j < n ensures !LineSets(init[j], k) {
        assert init[j] == comments[j];
      }
      ScanCommentsLastMatch(keys, init, k, i);
    }
  }

  /** The fourteen label values, before conversion. */
  datatype RawFields = RawFields(
    network: string, station: string, location: string, channel: string,
    start: string, end: string,
    latitude: string, longitude: string, depth: string, elevation: string, dip: string, azimuth: string,
    inputUnit: string, outputUnit: string)

  /** Every recognised label was found. */
  predicate AllPresent(d: map<string, string>) {
    forall k :: k in Keys ==> k in d
  }

  /** The value of every recognised label of a complete dictionary. */
  function LabelValues(d: map<string, string>): RawFields
    requires AllPresent(d)
  {
    RawFields(
      d["network"], d["station"], d["location"], d["channel"], d["start"], d["end"],
      d["latitude"], d["longitude"], d["depth"], d["elevation"], d["dip"], d["azimuth"],
      d["input unit"], d["output unit"])
  }

  /** The dictionary look-ups of the `try` block; any missing label is a failure. */
  function LookupFields(d: map<string, string>): (r: Option<RawFields>)
    ensures r.Some? <==> AllPresent(d)
    ensures r.Some? ==> r.value == LabelValues(d)
  {
    var network :- Lookup(d, "network");
    var station :- Lookup(d, "station");
    var location :- Lookup(d, "location");
    var channel :- Lookup(d, "channel");
    var start :- Lookup(d, "start");
    var end :- Lookup(d, "end");
    var latitude :- Lookup(d, "latitude");
    var longitude :- Lookup(d, "longitude");
    var depth :- Lookup(d, "depth");
    var elevation :- Lookup(d, "elevation");
    var dip :- Lookup(d, "dip");
    var azimuth :- Lookup(d, "azimuth");
    var inputUnit :- Lookup(d, "input unit");
    var outputUnit :- Lookup(d, "output unit");
    Some(RawFields(network, station, location, channel, start, end,
                   latitude, longitude, depth, elevation, dip, azimuth, inputUnit, outputUnit))
  }

  /** Both timestamps and all six numbers convert. */
  predicate Convertible(raw: RawFields, conv: Conversions) {
    && conv.toTime(raw.start).Some? && conv.toTime(raw.end).Some?
    && conv.toFloat(raw.latitude).Some? && conv.toFloat(raw.longitude).Some?
    && conv.toFloat(raw.elevation).Some? && conv.toFloat(raw.depth).Some?
    && conv.toFloat(raw.dip).Some? && conv.toFloat(raw.azimuth).Some?
  }

  /** Every field of `c` is its label's value, or that value's conversion. */
  predicate FieldsFrom(c: Channel, raw: RawFields, conv: Conversions) {
    && c.nslc == (raw.network, raw.station, raw.location, raw.channel)
    && c.tmin == conv.toTime(raw.start) && c.tmax == conv.toTime(raw.end)
    && Some(c.lat) == conv.toFloat(raw.latitude)
    && Some(c.lon) == conv.toFloat(raw.longitude)
    && Some(c.elevation) == conv.toFloat(raw.elevation)
    && Some(c.depth) == conv.toFloat(raw.depth)
    && Some(c.dip) == conv.toFloat(raw.dip)
    && Some(c.azimuth) == conv.toFloat(raw.azimuth)
    && c.inputUnit == raw.inputUnit && c.outputUnit == raw.outputUnit
  }

  /** The conversions and the `Channel(...)` call of the `try` block. */
  function ConvertFields(raw: RawFields, response: Response, conv: Conversions): (r: Option<Channel>)
    ensures r.Some? <==> Convertible(raw, conv)
    ensures r.Some? ==> FieldsFrom(r.value, raw, conv) && r.value.response == response
  {
    var tmin :- conv.toTime(raw.start);
    var tmax :- conv.toTime(raw.end);
    var lat :- conv.toFloat(raw.latitude);
    var lon :- conv.toFloat(raw.longitude);
    var elevation :- conv.toFloat(raw.elevation);
    var depth :- conv.toFloat(raw.depth);
    var dip :- conv.toFloat(raw.dip);
    var azimuth :- conv.toFloat(raw.azimuth);
    Some(Channel((raw.network, raw.station, raw.location, raw.channel), Some(tmin), Some(tmax),
                 lat, lon, elevation, depth, dip, azimuth, raw.inputUnit, raw.outputUnit, response))
  }

  /**
   `read_enhanced_sac_pz`: a `Channel` when the scanned comments are complete, with
   every field taken from (the conversion of) its label's value; otherwise one
   `EnhancedSacPzError` naming the file, and no partial record.
   */
  function ReadEnhancedSacPz(filename: string, zpk: SacZpk, conv: Conversions): (r: Result<Channel, EnhancedSacPzError>)
    ensures var d := ScanComments(Keys, zpk.comments);
      && (r.Success? <==> AllPresent(d) && Convertible(LabelValues(d), conv))
      && (r.Failure? ==> r.error == EnhancedSacPzError(filename))
      && (r.Success? ==> FieldsFrom(r.value, LabelValues(d), conv))
      && (r.Success? ==> r.value.response == PoleZeroResponse(zpk.zeros, zpk.poles, zpk.constant))
  {
    var response := PoleZeroResponse(zpk.zeros, zpk.poles, zpk.constant);
    var built :=
      var raw :- LookupFields(ScanComments(Keys, zpk.comments));
      ConvertFields(raw, response, conv);
    match built
    case Some(c) => Success(c)
    case None => Failure(EnhancedSacPzError(filename))
  }

  /** A file missing any one recognised label fails, whichever label it is. */
  lemma MissingLabelFails(filename: string, zpk: SacZpk, conv: Conversions, k: string)
    requires k in Keys
    requires forall i :: 0 <= i < |zpk.comments| ==> !LineSets(zpk.comments[i], k)
    ensures ReadEnhancedSacPz(filename, zpk, conv) == Failure(EnhancedSacPzError(filename))
  {
    ScanCommentsPresent(Keys, zpk.comments, k);
  }

  /** A parsed channel always has both bounds of its validity window set. */
  lemma ParsedWindowIsBounded(filename: string, zpk: SacZpk, conv: Conversions)
    ensures var r := ReadEnhancedSacPz(filename, zpk, conv);
      r.Success? ==> r.value.tmin.Some? && r.value.tmax.Some?
  {
  }
}

=== FILE: metadata.dfy ===
/**
 `MetaData`: the index from channel codes to the channel epochs added for
 them, with response look-up by validity window.
 */
module Index {
  import opened Wrappers
  import opened Channels

  /** The channel epochs added so far, per code, in insertion order. */
  datatype MetaData = MetaData(content: map<Nslc, seq<Channel>>)

  /** A freshly constructed index. */
  const Empty: MetaData := MetaData(map[])

  /** Every list is non-empty and holds only channels of its own code. */
  predicate Valid(m: MetaData) {
    forall k :: k in m.content ==> |m.content[k]| > 0 && forall c :: c in m.content[k] ==> c.nslc == k
  }

  /** `self._content.get(nslc, [])`. */
  function Stored(m: MetaData, nslc: Nslc): seq<Channel> {
    if nslc in m.content then m.content[nslc] else []
  }

  /**
   `add_channel`: the channel goes to the end of the list of its code, which is
   created when missing. Duplicates and overlapping epochs are accepted; no other
   list changes.
   */
  function AddChannel(m: MetaData, c: Channel): (m': MetaData)
    ensures Stored(m', c.nslc) == Stored(m, c.nslc) + [c]
    ensures forall k {:trigger Stored(m', k)} :: k != c.nslc ==> Stored(m', k) == Stored(m, k)
    ensures m'.content.Keys == m.content.Keys + {c.nslc}
    ensures Valid(m) ==> Valid(m')
  {
    MetaData(m.content[c.nslc := Stored(m, c.nslc) + [c]])
  }

  /** Adding a sequence of channels one after the other. */
  function AddChannels(m: MetaData, cs: seq<Channel>): MetaData
    decreases |cs|
  {
    if |cs| == 0 then m else AddChannel(AddChannels(m, cs[..|cs| - 1]), cs[|cs| - 1])
  }

  /** The channels of `cs` whose code is `k`, in order. */
  function OfCode(cs: seq<Channel>, k: Nslc): (r: seq<Channel>)
    ensures forall c :: c in r <==> c in cs && c.nslc == k
    decreases |cs|
  {
    if |cs| == 0 then []
    else (if cs[0].nslc == k then [cs[0]] else []) + OfCode(cs[1..], k)
  }

  lemma {:induction false} OfCodeAppend(cs: seq<Channel>, c: Channel, k: Nslc)
    ensures OfCode(cs + [c], k) == OfCode(cs, k) + (if c.nslc == k then [c] else [])
    decreases |cs|
  {
    var s := cs + [c];
    if |cs| == 0 {
      assert s == [c] && s[1..] == [];
    } else {
      assert s[0] == cs[0] && s[1..] == cs[1..] + [c];
      OfCodeAppend(cs[1..], c, k);
    }
  }

  /** The index holds, for every code, exactly the channels of that code in `done`, in order. */
  ghost predicate HoldsExactly(m: MetaData, done: seq<Channel>) {
    && (forall k {:trigger Stored(m, k)} :: Stored(m, k) == OfCode(done, k))
    && (forall k {:trigger OfCode(done, k)} :: k in m.content <==> OfCode(done, k) != [])
  }

  /** One `add_channel` call keeps the index equal to the partition of what was added. */
  lemma AddChannelHoldsExactly(m: MetaData, done: seq<Channel>, c: Channel)
    requires HoldsExactly(m, done)
    ensures HoldsExactly(AddChannel(m, c), done + [c])
  {
    var m1 := AddChannel(m, c);
    forall k ensures Stored(m1, k) == OfCode(done + [c], k) {
      OfCodeAppend(done, c, k);
      assert Stored(m, k) == OfCode(done, k);
    }
    forall k ensures k in m1.content <==> OfCode(done + [c], k) != [] {
      OfCodeAppend(done, c, k);
      assert k in m.content <==> OfCode(done, k) != [];
    }
  }

  /**
   The index built by adding `cs` to an empty index holds exactly the channels
   of `cs`: for every code its channels in the order they were added, and a code
   is present exactly when some channel has it.
   */
  lemma {:induction false} AddChannelsPartitions(cs: seq<Channel>)
    ensures HoldsExactly(AddChannels(Empty, cs), cs)
    decreases |cs|
  {
    if |cs| > 0 {
      var init := cs[..|cs| - 1];
      assert init + [cs[|cs| - 1]] == cs;
      AddChannelsPartitions(init);
      AddChannelHoldsExactly(AddChannels(Empty, init), init, cs[|cs| - 1]);
    }
  }

  /** The index built from nothing but `cs`: each code's list is its channels of `cs`, in order. */
  lemma {:induction false} AddChannelsFromEmpty(cs: seq<Channel>, k: Nslc)
    ensures Stored(AddChannels(Empty, cs), k) == OfCode(cs, k)
    ensures k in AddChannels(Empty, cs).content <==> OfCode(cs, k) != []
  {
    AddChannelsPartitions(cs);
  }

  /** Every index built from the empty one by `add_channel` is valid. */
  lemma {:induction false} AddChannelsValid(m: MetaData, cs: seq<Channel>)
    requires Valid(m)
    ensures Valid(AddChannels(m, cs))
    decreases |cs|
  {
    if |cs| > 0 {
      AddChannelsValid(m, cs[..|cs| - 1]);
    }
  }

  /** No element occurs twice, as for the keys of a dictionary. */
  predicate Distinct<T(==)>(xs: seq<T>) {
    forall i, j :: 0 <= i < j < |xs| ==> xs[i] != xs[j]
  }

  /**
   `nslc_code_list`: the codes of the index, each once, in the dictionary's
   (unspecified) order.
   */
  method NslcCodeList(m: MetaData) returns (codes: seq<Nslc>)
    ensures forall k :: k in codes <==> k in m.content
    ensures Distinct(codes)
  {
    codes := [];
    var rest := m.content.Keys;
    while rest != {}
      invariant forall k :: k in m.content <==> k in rest || k in codes
      invariant forall k :: k in codes ==> k !in rest
      invariant Distinct(codes)
      decreases rest
    {
      var k :| k in rest;
      codes := codes + [k];
      rest := rest - {k};
    }
  }

  /** The query the keyword arguments select: `time` wins over `timespan`. */
  function SelectQuery(time: Option<int>, timespan: Option<Timespan>): (q: Query)
    ensures q.At? <==> time.Some?
    ensures q.At? ==> q.t == time.value
    ensures q.Between? <==> time.None? && timespan.Some?
    ensures q.Between? ==> timespan == Some((q.a, q.b))
    ensures q.Anytime? <==> time.None? && timespan.None?
  {
    if time.Some? then At(time.value)
    else if timespan.Some? then Between(timespan.value.0, timespan.value.1)
    else Anytime
  }

  /** `[c for c in channels if c.spans(*tt)]`. */
  function Candidates(cs: seq<Channel>, q: Query): (r: seq<Channel>)
    ensures |r| <= |cs|
    ensures forall c :: c in r <==> c in cs && Spans(c, q)
    decreases |cs|
  {
    if |cs| == 0 then []
    else (if Spans(cs[0], q) then [cs[0]] else []) + Candidates(cs[1..], q)
  }

  /** The filter keeps every spanning channel as often as it is stored, and no other. */
  lemma {:induction false} CandidatesCount(cs: seq<Channel>, q: Query, c: Channel)
    ensures multiset(Candidates(cs, q))[c] == if Spans(c, q) then multiset(cs)[c] else 0
    decreases |cs|
  {
    if |cs| > 0 {
      assert cs == [cs[0]] + cs[1..];
      CandidatesCount(cs[1..], q, c);
    }
  }

  /** Position `i` holds the only channel of `cs` that spans `q`. */
  ghost predicate UniqueSpanning(cs: seq<Channel>, q: Query, i: int) {
    && 0 <= i < |cs| && Spans(cs[i], q)
    && forall j :: 0 <= j < |cs| && j != i ==> !Spans(cs[j], q)
  }

  /** Two distinct positions of `cs` span `q`. */
  ghost predicate Ambiguous(cs: seq<Channel>, q: Query) {
    exists i, j :: 0 <= i < j < |cs| && Spans(cs[i], q) && Spans(cs[j], q)
  }

  /** No candidates means no stored channel spans the query. */
  lemma CandidatesNone(cs: seq<Channel>, q: Query)
    ensures |Candidates(cs, q)| == 0 <==> forall i :: 0 <= i < |cs| ==> !Spans(cs[i], q)
  {
    if |Candidates(cs, q)| > 0 {
      assert Candidates(cs, q)[0] in Candidates(cs, q);
    }
  }

  /** Two spanning positions give at least two candidates. */
  lemma {:induction false} AmbiguousHasManyCandidates(cs: seq<Channel>, q: Query, i: int, j: int)
    requires 0 <= i < j < |cs| && Spans(cs[i], q) && Spans(cs[j], q)
    ensures |Candidates(cs, q)| >= 2
    decreases |cs|
  {
    var tail := cs[1..];
    var rest := Candidates(tail, q);
    assert Candidates(cs, q) == (if Spans(cs[0], q) then [cs[0]] else []) + rest;
    assert tail[j - 1] == cs[j];
    if i == 0 {
      assert cs[j] in tail;
      assert cs[j] in rest;
    } else {
      assert tail[i - 1] == cs[i];
      AmbiguousHasManyCandidates(tail, q, i - 1, j - 1);
    }
  }

  /** At least two candidates come from two spanning positions. */
  lemma {:induction false} ManyCandidatesAreAmbiguous(cs: seq<Channel>, q: Query)
    requires |Candidates(cs, q)| >= 2
    ensures Ambiguous(cs, q)
    decreases |cs|
  {
    var tail := cs[1..];
    var rest := Candidates(tail, q);
    if Spans(cs[0], q) {
      assert Candidates(cs, q) == [cs[0]] + rest;
      var c := rest[0];
      assert c in rest;
      var j :| 0 <= j < |tail| && tail[j] == c;
      assert cs[j + 1] == c;
      assert Spans(cs[0], q) && Spans(cs[j + 1], q);
    } else {
      assert Candidates(cs, q) == rest;
      ManyCandidatesAreAmbiguous(tail, q);
      var i, j :| 0 <= i < j < |tail| && Spans(tail[i], q) && Spans(tail[j], q);
      assert cs[i + 1] == tail[i] && cs[j + 1] == tail[j];
      assert Spans(cs[i + 1], q) && Spans(cs[j + 1], q);
    }
  }

  /** Several candidates means two distinct positions span the query. */
  lemma CandidatesMany(cs: seq<Channel>, q: Query)
    ensures |Candidates(cs, q)| >= 2 <==> Ambiguous(cs, q)
  {
    if Ambiguous(cs, q) {
      var i, j :| 0 <= i < j < |cs| && Spans(cs[i], q) && Spans(cs[j], q);
      AmbiguousHasManyCandidates(cs, q, i, j);
    }
    if |Candidates(cs, q)| >= 2 {
      ManyCandidatesAreAmbiguous(cs, q);
    }
  }

  /** Exactly one candidate is the channel at the only spanning position. */
  lemma {:induction false} CandidatesOne(cs: seq<Channel>, q: Query)
    requires |Candidates(cs, q)| == 1
    ensures exists i :: UniqueSpanning(cs, q, i) && Candidates(cs, q)[0] == cs[i]
    decreases |cs|
  {
    var tail := cs[1..];
    if Spans(cs[0], q) {
      CandidatesNone(tail, q);
      assert forall j :: 0 < j < |cs| ==> cs[j] == tail[j - 1];
      assert UniqueSpanning(cs, q, 0);
    } else {
      CandidatesOne(tail, q);
      var i :| UniqueSpanning(tail, q, i) && Candidates(tail, q)[0] == tail[i];
      assert forall j :: 0 < j < |cs| ==> cs[j] == tail[j - 1];
      assert UniqueSpanning(cs, q, i + 1);
    }
  }

  /** Why a look-up found no usable response. */
  datatype NoInfoReason = NoSpanningChannel(nslc: Nslc) | UnitMismatch(requested: string, actual: string)

  /** The errors `get_pyrocko_response` raises. */
  datatype LookupError =
    | NoResponseInformation(reason: NoInfoReason)
    | MultipleResponseInformation(nslc: Nslc)

  /** An empty or absent `fake_input_units` accepts any unit; otherwise it must match. */
  predicate UnitAccepted(fakeInputUnits: Option<string>, inputUnit: string) {
    fakeInputUnits.None? || fakeInputUnits.value == "" || fakeInputUnits.value == inputUnit
  }

  /**
   `get_pyrocko_response`: among the stored channels of `nslc` that span the
   selected query, none gives `NoResponseInformation`, several give
   `MultipleResponseInformation`, and exactly one gives its response unless a
   requested input unit differs from the channel's.
   */
  function GetPyrockoResponse(m: MetaData, nslc: Nslc, time: Option<int>, timespan: Option<Timespan>,
                              fakeInputUnits: Option<string>): (r: Result<Response, LookupError>)
    ensures var q, cs := SelectQuery(time, timespan), Stored(m, nslc);
      && (r == Failure(NoResponseInformation(NoSpanningChannel(nslc))) <==> forall i :: 0 <= i < |cs| ==> !Spans(cs[i], q))
      && (r == Failure(MultipleResponseInformation(nslc)) <==> Ambiguous(cs, q))
      && (r.Success? <==> exists i :: UniqueSpanning(cs, q, i) && UnitAccepted(fakeInputUnits, cs[i].inputUnit))
      && (r.Success? ==> exists i :: UniqueSpanning(cs, q, i) && r.value == cs[i].response)
      && ((r.Failure? && r.error.NoResponseInformation? && r.error.reason.UnitMismatch?)
            <==> exists i :: UniqueSpanning(cs, q, i) && !UnitAccepted(fakeInputUnits, cs[i].inputUnit))
      && ((r.Failure? && r.error.NoResponseInformation? && r.error.reason.UnitMismatch?)
            ==> exists i :: UniqueSpanning(cs, q, i) && fakeInputUnits.Some?
                           && r.error.reason == UnitMismatch(fakeInputUnits.value, cs[i].inputUnit))
  {
    var q := SelectQuery(time, timespan);
    var candidates := Candidates(Stored(m, nslc), q);
    CandidatesNone(Stored(m, nslc), q);
    CandidatesMany(Stored(m, nslc), q);
    if |candidates| == 0 then Failure(NoResponseInformation(NoSpanningChannel(nslc)))
    else if |candidates| > 1 then Failure(MultipleResponseInformation(nslc))
    else
      CandidatesOne(Stored(m, nslc), q);
      var channel := candidates[0];
      if fakeInputUnits.Some? && fakeInputUnits.value != "" && channel.inputUnit != fakeInputUnits.value then
        Failure(NoResponseInformation(UnitMismatch(fakeInputUnits.value, channel.inputUnit)))
      else Success(channel.response)
  }

  /** `time` takes precedence over `timespan` when both are given. */
  lemma TimeTakesPrecedence(m: MetaData, nslc: Nslc, t: int, span: Timespan, fakeInputUnits: Option<string>)
    ensures GetPyrockoResponse(m, nslc, Some(t), Some(span), fakeInputUnits)
            == GetPyrockoResponse(m, nslc, Some(t), None, fakeInputUnits)
  {
  }

  /** A code that was never added has no response information. */
  lemma UnknownCodeHasNoResponse(m: MetaData, nslc: Nslc, time: Option<int>, timespan: Option<Timespan>,
                                 fakeInputUnits: Option<string>)
    requires nslc !in m.content
    ensures GetPyrockoResponse(m, nslc, time, timespan, fakeInputUnits)
            == Failure(NoResponseInformation(NoSpanningChannel(nslc)))
  {
  }

  /**
   A timespan open at the end finds no channel with a set start, which every
   parsed channel has: under Python 2's ordering the lookup reports no response
   information, even for a window holding every instant after `a`.
   */
  lemma OpenEndMissesStartedChannels(m: MetaData, nslc: Nslc, a: int, fakeInputUnits: Option<string>)
    requires forall c :: c in Stored(m, nslc) ==> c.tmin.Some?
    ensures GetPyrockoResponse(m, nslc, None, Some((Some(a), None)), fakeInputUnits)
            == Failure(NoResponseInformation(NoSpanningChannel(nslc)))
  {
    var cs := Stored(m, nslc);
    forall i | 0 <= i < |cs| ensures !Spans(cs[i], Between(Some(a), None)) {
      assert cs[i] in cs;
    }
  }

  /** A timespan open at the start finds a bounded epoch exactly when its start is at most `b`. */
  lemma OpenStartLookup(c: Channel, b: int)
    requires c.tmin.Some? && c.tmax.Some?
    ensures var r := GetPyrockoResponse(AddChannel(Empty, c), c.nslc, None, Some((None, Some(b))), None);
      && (c.tmin.value <= b ==> r == Success(c.response))
      && (b < c.tmin.value ==> r == Failure(NoResponseInformation(NoSpanningChannel(c.nslc))))
  {
    var cs := Stored(AddChannel(Empty, c), c.nslc);
    assert cs == [c];
    if c.tmin.value <= b {
      assert UniqueSpanning(cs, Between(None, Some(b)), 0);
    }
  }

  /** One bounded epoch answers an instant inside its window and nothing outside it. */
  lemma OneEpochLookup(c: Channel, t: int)
    requires c.tmin.Some? && c.tmax.Some?
    ensures var r := GetPyrockoResponse(AddChannel(Empty, c), c.nslc, Some(t), None, None);
      && (c.tmin.value <= t <= c.tmax.value ==> r == Success(c.response))
      && (t < c.tmin.value || c.tmax.value < t ==> r == Failure(NoResponseInformation(NoSpanningChannel(c.nslc))))
  {
    var cs := Stored(AddChannel(Empty, c), c.nslc);
    assert cs == [c];
    if c.tmin.value <= t <= c.tmax.value {
      assert UniqueSpanning(cs, At(t), 0);
    }
  }

  /**
   Two epochs of one code with disjoint windows: an instant in either window
   answers with that epoch's response, and an instant between the windows has
   no response information.
   */
  lemma DisjointEpochsLookup(c1: Channel, c2: Channel, t: int)
    requires c1.nslc == c2.nslc
    requires c1.tmin.Some? && c1.tmax.Some? && c2.tmin.Some? && c2.tmax.Some?
    requires c1.tmax.value < c2.tmin.value
    ensures var r := GetPyrockoResponse(AddChannel(AddChannel(Empty, c1), c2), c1.nslc, Some(t), None, None);
      && (c1.tmin.value <= t <= c1.tmax.value ==> r == Success(c1.response))
      && (c2.tmin.value <= t <= c2.tmax.value ==> r == Success(c2.response))
      && (c1.tmax.value < t < c2.tmin.value ==> r == Failure(NoResponseInformation(NoSpanningChannel(c1.nslc))))
  {
    var cs := Stored(AddChannel(AddChannel(Empty, c1), c2), c1.nslc);
    assert cs == [c1, c2];
    if c1.tmin.value <= t <= c1.tmax.value {
      assert UniqueSpanning(cs, At(t), 0);
    } else if c2.tmin.value <= t <= c2.tmax.value {
      assert UniqueSpanning(cs, At(t), 1);
    }
  }

  /** Two epochs of one code whose windows both hold the instant are ambiguous. */
  lemma OverlappingEpochsLookup(c1: Channel, c2: Channel, t: int)
    requires c1.nslc == c2.nslc
    requires Spans(c1, At(t)) && Spans(c2, At(t))
    ensures GetPyrockoResponse(AddChannel(AddChannel(Empty, c1), c2), c1.nslc, Some(t), None, None)
            == Failure(MultipleResponseInformation(c1.nslc))
  {
    var cs := Stored(AddChannel(AddChannel(Empty, c1), c2), c1.nslc);
    assert cs == [c1, c2];
    assert Spans(cs[0], At(t)) && Spans(cs[1], At(t));
    assert Ambiguous(cs, At(t));
  }
}

=== FILE: stations.dfy ===
/**
 The grouping half of `get_pyrocko_stations`: spanning channels are grouped by
 network, station and location, and each group with identical coordinates
 becomes one station summary.
 */
module Summaries {
  import opened Wrappers
  import opened Channels
  import opened Index

  /** Network, station and location codes. */
  type Nsl = (string, string, string)

  /** `nslc[:3]`. */
  function StationOf(k: Nslc): Nsl {
    (k.0, k.1, k.2)
  }

  /** `by_nsl.get(g, [])`. */
  function GroupOf(groups: map<Nsl, seq<Channel>>, g: Nsl): seq<Channel> {
    if g in groups then groups[g] else []
  }

  /** Appending the spanning channels of one code to the group of its station. */
  function AddToGroup(groups: map<Nsl, seq<Channel>>, g: Nsl, cs: seq<Channel>): (r: map<Nsl, seq<Channel>>)
    ensures GroupOf(r, g) == GroupOf(groups, g) + cs
    ensures forall h {:trigger GroupOf(r, h)} :: h != g ==> GroupOf(r, h) == GroupOf(groups, h)
    ensures forall h :: h in r <==> h in groups || (h == g && |cs| > 0)
  {
    if |cs| == 0 then groups else groups[g := GroupOf(groups, g) + cs]
  }

  /**
   The grouping loop: the codes are visited in `keyOrder` (the dictionary's
   order) and every channel that spans `q` is appended to the group of its
   station. A group is created only with a first member.
   */
  function GroupByStation(m: MetaData, keyOrder: seq<Nslc>, q: Query): (groups: map<Nsl, seq<Channel>>)
    ensures forall g :: g in groups ==> |groups[g]| > 0
    decreases |keyOrder|
  {
    if |keyOrder| == 0 then map[]
    else
      var k := keyOrder[|keyOrder| - 1];
      AddToGroup(GroupByStation(m, keyOrder[..|keyOrder| - 1], q), StationOf(k), Candidates(Stored(m, k), q))
  }

  /** Every channel that spans `q`, in the order the loop visits them. */
  function SpanningInOrder(m: MetaData, keyOrder: seq<Nslc>, q: Query): (r: seq<Channel>)
    ensures forall c :: c in r <==> exists k :: k in keyOrder && c in Stored(m, k) && Spans(c, q)
    decreases |keyOrder|
  {
    if |keyOrder| == 0 then []
    else
      var init := keyOrder[..|keyOrder| - 1];
      var k := keyOrder[|keyOrder| - 1];
      assert forall k' :: k' in keyOrder <==> k' in init || k' == k;
      SpanningInOrder(m, init, q) + Candidates(Stored(m, k), q)
  }

  /** The channels of `cs` that belong to station `g`, in order. */
  function OfStation(cs: seq<Channel>, g: Nsl): (r: seq<Channel>)
    ensures forall c :: c in r <==> c in cs && StationOf(c.nslc) == g
    decreases |cs|
  {
    if |cs| == 0 then []
    else (if StationOf(cs[0].nslc) == g then [cs[0]] else []) + OfStation(cs[1..], g)
  }

  lemma {:induction false} OfStationConcat(a: seq<Channel>, b: seq<Channel>, g: Nsl)
    ensures OfStation(a + b, g) == OfStation(a, g) + OfStation(b, g)
    decreases |a|
  {
    if |a| > 0 {
      assert (a + b)[1..] == a[1..] + b;
      OfStationConcat(a[1..], b, g);
    } else {
      assert a + b == b;
    }
  }

  lemma {:induction false} OfStationUniform(cs: seq<Channel>, g: Nsl, h: Nsl)
    requires forall c :: c in cs ==> StationOf(c.nslc) == h
    ensures OfStation(cs, g) == if g == h then cs else []
    decreases |cs|
  {
    if |cs| > 0 {
      OfStationUniform(cs[1..], g, h);
      assert cs == [cs[0]] + cs[1..];
    }
  }

  /** One step of the grouping loop keeps every group equal to its station's share of the visited channels. */
  lemma GroupStep(prev: map<Nsl, seq<Channel>>, visited: seq<Channel>, h: Nsl, added: seq<Channel>, g: Nsl)
    requires GroupOf(prev, g) == OfStation(visited, g)
    requires g in prev <==> OfStation(visited, g) != []
    requires forall c :: c in added ==> StationOf(c.nslc) == h
    ensures GroupOf(AddToGroup(prev, h, added), g) == OfStation(visited + added, g)
    ensures g in AddToGroup(prev, h, added) <==> OfStation(visited + added, g) != []
  {
    OfStationConcat(visited, added, g);
    OfStationUniform(added, g, h);
  }

  /**
   Each group is exactly the spanning channels of its station, in visiting
   order, and a group exists exactly when it has a member: every spanning
   channel lands in the one group of its own station and in no other.
   */
  lemma {:induction false} GroupByStationPartitions(m: MetaData, keyOrder: seq<Nslc>, q: Query)
    requires Valid(m)
    ensures forall g {:trigger GroupOf(GroupByStation(m, keyOrder, q), g)} ::
              GroupOf(GroupByStation(m, keyOrder, q), g) == OfStation(SpanningInOrder(m, keyOrder, q), g)
    ensures forall g :: g in GroupByStation(m, keyOrder, q) <==> OfStation(SpanningInOrder(m, keyOrder, q), g) != []
    decreases |keyOrder|
  {
    if |keyOrder| > 0 {
      var init := keyOrder[..|keyOrder| - 1];
      var k := keyOrder[|keyOrder| - 1];
      var added := Candidates(Stored(m, k), q);
      var prev := GroupByStation(m, init, q);
      var visited := SpanningInOrder(m, init, q);
      assert GroupByStation(m, keyOrder, q) == AddToGroup(prev, StationOf(k), added);
      assert SpanningInOrder(m, keyOrder, q) == visited + added;
      GroupByStationPartitions(m, init, q);
      assert forall c :: c in added ==> StationOf(c.nslc) == StationOf(k);
      forall g
        ensures GroupOf(AddToGroup(prev, StationOf(k), added), g) == OfStation(visited + added, g)
        ensures g in AddToGroup(prev, StationOf(k), added) <==> OfStation(visited + added, g) != []
      {
        GroupStep(prev, visited, StationOf(k), added, g);
      }
    }
  }

  /** A stored channel spanning `q` is in the group of its station, and in no other. */
  lemma SpanningChannelGroup(m: MetaData, keyOrder: seq<Nslc>, q: Query, c: Channel)
    requires Valid(m)
    requires forall k :: k in m.content ==> k in keyOrder
    ensures var groups := GroupByStation(m, keyOrder, q);
      && (c in GroupOf(groups, StationOf(c.nslc)) <==> c in Stored(m, c.nslc) && Spans(c, q))
      && forall g :: g != StationOf(c.nslc) ==> c !in GroupOf(groups, g)
  {
    GroupByStationPartitions(m, keyOrder, q);
    if c in Stored(m, c.nslc) && Spans(c, q) {
      assert c.nslc in m.content;
    }
  }
  /** Selecting a station's channels keeps each of them as often as it occurs. */
  lemma {:induction false} OfStationCount(xs: seq<Channel>, g: Nsl, c: Channel)
    ensures multiset(OfStation(xs, g))[c] == if StationOf(c.nslc) == g then multiset(xs)[c] else 0
    decreases |xs|
  {
    if |xs| > 0 {
      assert xs == [xs[0]] + xs[1..];
      OfStationCount(xs[1..], g, c);
    }
  }

  /** Visiting each code once, a spanning channel is visited as often as it is stored. */
  lemma {:induction false} SpanningInOrderCount(m: MetaData, keyOrder: seq<Nslc>, q: Query, c: Channel)
    requires Valid(m)
    requires Distinct(keyOrder)
    ensures multiset(SpanningInOrder(m, keyOrder, q))[c]
            == if c.nslc in keyOrder && Spans(c, q) then multiset(Stored(m, c.nslc))[c] else 0
    decreases |keyOrder|
  {
    if |keyOrder| > 0 {
      var n := |keyOrder| - 1;
      var init := keyOrder[..n];
      var k := keyOrder[n];
      assert SpanningInOrder(m, keyOrder, q) == SpanningInOrder(m, init, q) + Candidates(Stored(m, k), q);
      assert forall i :: 0 <= i < n ==> init[i] == keyOrder[i];
      assert Distinct(init);
      assert c.nslc in keyOrder <==> c.nslc in init || c.nslc == k;
      SpanningInOrderCount(m, init, q, c);
      CandidatesCount(Stored(m, k), q, c);
      if c.nslc == k {
        assert k !in init;
      } else {
        assert c !in Stored(m, k);
      }
    }
  }

  /**
   The groups of the index for query `q`: each group holds channels of its own
   station only, and a channel is in its station's group exactly as often as it
   is stored when it spans `q`, and not at all otherwise.
   */
  ghost predicate GroupsOf(m: MetaData, q: Query, groups: map<Nsl, seq<Channel>>) {
    && (forall g: Nsl, c: Channel :: g in groups && c in groups[g] ==> StationOf(c.nslc) == g)
    && (forall c: Channel :: multiset(GroupOf(groups, StationOf(c.nslc)))[c]
                   == if Spans(c, q) then multiset(Stored(m, c.nslc))[c] else 0)
  }

  /** Visiting every code of a valid index once groups exactly its spanning channels. */
  lemma GroupsOfIndex(m: MetaData, keyOrder: seq<Nslc>, q: Query)
    requires Valid(m)
    requires forall k :: k in m.content ==> k in keyOrder
    requires Distinct(keyOrder)
    ensures GroupsOf(m, q, GroupByStation(m, keyOrder, q))
  {
    var groups := GroupByStation(m, keyOrder, q);
    var visited := SpanningInOrder(m, keyOrder, q);
    GroupByStationPartitions(m, keyOrder, q);
    forall g: Nsl, c: Channel | g in groups && c in groups[g] ensures StationOf(c.nslc) == g {
      assert GroupOf(groups, g) == groups[g];
    }
    forall c: Channel ensures multiset(GroupOf(groups, StationOf(c.nslc)))[c]
                     == if Spans(c, q) then multiset(Stored(m, c.nslc))[c] else 0
    {
      OfStationCount(visited, StationOf(c.nslc), c);
      SpanningInOrderCount(m, keyOrder, q, c);
      if c.nslc !in keyOrder {
        assert Stored(m, c.nslc) == [];
      }
    }
  }


  /** `station.same`: all values equal. */
  predicate Same(xs: seq<real>) {
    forall i :: 0 <= i < |xs| ==> xs[i] == xs[0]
  }

  function Sum(xs: seq<real>): real
    decreases |xs|
  {
    if |xs| == 0 then 0.0 else xs[0] + Sum(xs[1..])
  }

  /** `num.mean`, over exact reals. */
  function Mean(xs: seq<real>): real
    requires |xs| > 0
  {
    Sum(xs) / (|xs| as real)
  }

  lemma {:induction false} SumOfConstant(xs: seq<real>, v: real)
    requires forall i :: 0 <= i < |xs| ==> xs[i] == v
    ensures Sum(xs) == (|xs| as real) * v
    decreases |xs|
  {
    if |xs| > 0 {
      SumOfConstant(xs[1..], v);
    }
  }

  /** The mean of identical values is that value. */
  lemma MeanOfSame(xs: seq<real>)
    requires |xs| > 0 && Same(xs)
    ensures Mean(xs) == xs[0]
  {
    SumOfConstant(xs, xs[0]);
  }

  function Lats(cs: seq<Channel>): seq<real> {
    seq(|cs|, i requires 0 <= i < |cs| => cs[i].lat)
  }

  function Lons(cs: seq<Channel>): seq<real> {
    seq(|cs|, i requires 0 <= i < |cs| => cs[i].lon)
  }

  function Depths(cs: seq<Channel>): seq<real> {
    seq(|cs|, i requires 0 <= i < |cs| => cs[i].depth)
  }

  function Elevations(cs: seq<Channel>): seq<real> {
    seq(|cs|, i requires 0 <= i < |cs| => cs[i].elevation)
  }

  /** The channels of a group agree exactly on latitude, longitude, depth and elevation. */
  predicate Consistent(cs: seq<Channel>)
    ensures Consistent(cs) <==> Same(Lats(cs)) && Same(Lons(cs)) && Same(Depths(cs)) && Same(Elevations(cs))
  {
    assert |Lats(cs)| == |Lons(cs)| == |Depths(cs)| == |Elevations(cs)| == |cs|;
    assert forall i :: 0 <= i < |cs| ==>
      Lats(cs)[i] == cs[i].lat && Lons(cs)[i] == cs[i].lon && Depths(cs)[i] == cs[i].depth && Elevations(cs)[i] == cs[i].elevation;
    forall i :: 0 <= i < |cs| ==>
      cs[i].lat == cs[0].lat && cs[i].lon == cs[0].lon && cs[i].depth == cs[0].depth && cs[i].elevation == cs[0].elevation
  }

  /** The mean coordinates of a consistent group are the coordinates its members share. */
  lemma ConsistentMeans(cs: seq<Channel>)
    requires |cs| > 0
    ensures Consistent(cs) ==> forall i :: 0 <= i < |cs| ==>
              && Mean(Lats(cs)) == cs[i].lat && Mean(Lons(cs)) == cs[i].lon
              && Mean(Depths(cs)) == cs[i].depth && Mean(Elevations(cs)) == cs[i].elevation
  {
    if Consistent(cs) {
      MeanOfSame(Lats(cs));
      MeanOfSame(Lons(cs));
      MeanOfSame(Depths(cs));
      MeanOfSame(Elevations(cs));
      forall i | 0 <= i < |cs|
        ensures Mean(Lats(cs)) == cs[i].lat && Mean(Lons(cs)) == cs[i].lon
        ensures Mean(Depths(cs)) == cs[i].depth && Mean(Elevations(cs)) == cs[i].elevation
      {
        assert Lats(cs)[i] == cs[i].lat && Lons(cs)[i] == cs[i].lon;
        assert Depths(cs)[i] == cs[i].depth && Elevations(cs)[i] == cs[i].elevation;
      }
    }
  }

  /** One entry of a station's channel list. */
  datatype StationChannel = StationChannel(code: string, azimuth: real, dip: real)

  /** A station summary: mean coordinates and the orientation of each member channel. */
  datatype Station = Station(nsl: Nsl, lat: real, lon: real, elevation: real, depth: real,
                             channels: seq<StationChannel>)

  /**
   The station built for a group: one channel entry per member, carrying its
   channel code, azimuth and dip; for a consistent group the coordinates are
   those every member shares.
   */
  function Summarize(g: Nsl, cs: seq<Channel>): (s: Station)
    requires |cs| > 0
    ensures s.nsl == g
    ensures |s.channels| == |cs|
    ensures forall i :: 0 <= i < |cs| ==> s.channels[i] == StationChannel(cs[i].nslc.3, cs[i].azimuth, cs[i].dip)
    ensures Consistent(cs) ==> forall i :: 0 <= i < |cs| ==>
              s.lat == cs[i].lat && s.lon == cs[i].lon && s.depth == cs[i].depth && s.elevation == cs[i].elevation
  {
    ConsistentMeans(cs);
    Station(g, Mean(Lats(cs)), Mean(Lons(cs)), Mean(Elevations(cs)), Mean(Depths(cs)),
            seq(|cs|, i requires 0 <= i < |cs| => StationChannel(cs[i].nslc.3, cs[i].azimuth, cs[i].dip)))
  }

  /** The `inconsistencies` argument: `'raise'`, `'warn'` (the default) or any other value. */
  datatype Policy = Raise | Warn | OtherPolicy

  /** Raised under the `'raise'` policy for a group whose coordinates disagree. */
  datatype StationError = InconsistentChannelLocations(nsl: Nsl)

  /** The groups are listed in `nslOrder`, each non-empty. */
  predicate Listed(groups: map<Nsl, seq<Channel>>, nslOrder: seq<Nsl>) {
    forall i :: 0 <= i < |nslOrder| ==> nslOrder[i] in groups && |groups[nslOrder[i]]| > 0
  }

  /**
   The station loop as written: the consistency test overwrites the policy
   argument with a boolean, so neither policy branch can fire and every group
   yields a station, whatever its coordinates and whatever the policy.
   */
  function StationsAsWritten(groups: map<Nsl, seq<Channel>>, nslOrder: seq<Nsl>, policy: Policy): (r: seq<Station>)
    requires Listed(groups, nslOrder)
    ensures |r| == |nslOrder|
    ensures forall i :: 0 <= i < |nslOrder| ==> r[i].nsl == nslOrder[i] && |r[i].channels| == |groups[nslOrder[i]]|
    ensures forall i :: 0 <= i < |nslOrder| ==> r[i] == Summarize(nslOrder[i], groups[nslOrder[i]])
    decreases |nslOrder|
  {
    if |nslOrder| == 0 then []
    else
      var g := nslOrder[0];
      // Line 140 rebinds the policy argument to this flag, which nothing then compares usefully.
      var inconsistencies := !Consistent(groups[g]);
      assert forall i :: 0 < i < |nslOrder| ==> nslOrder[1..][i - 1] == nslOrder[i];
      [Summarize(g, groups[g])] + StationsAsWritten(groups, nslOrder[1..], policy)
  }

  /** As written, the policy argument has no effect on the result. */
  lemma AsWrittenIgnoresPolicy(groups: map<Nsl, seq<Channel>>, nslOrder: seq<Nsl>, p1: Policy, p2: Policy)
    requires Listed(groups, nslOrder)
    ensures StationsAsWritten(groups, nslOrder, p1) == StationsAsWritten(groups, nslOrder, p2)
  {
  }

  /**
   The station loop with the consistency flag kept apart from the policy: under
   `'raise'` the first inconsistent group aborts the call, under `'warn'` it is
   left out, and any other policy keeps it.
   */
  function Stations(groups: map<Nsl, seq<Channel>>, nslOrder: seq<Nsl>, policy: Policy): (r: Result<seq<Station>, StationError>)
    requires Listed(groups, nslOrder)
    ensures r.Failure? <==> policy == Raise && exists i :: 0 <= i < |nslOrder| && !Consistent(groups[nslOrder[i]])
    decreases |nslOrder|
  {
    if |nslOrder| == 0 then Success([])
    else
      var g := nslOrder[0];
      var inconsistent := !Consistent(groups[g]);
      assert forall i :: 0 < i < |nslOrder| ==> nslOrder[1..][i - 1] == nslOrder[i];
      if inconsistent && policy == Raise then Failure(InconsistentChannelLocations(g))
      else
        var rest := Stations(groups, nslOrder[1..], policy);
        if rest.Failure? then rest
        else if inconsistent && policy == Warn then rest
        else Success([Summarize(g, groups[g])] + rest.value)
  }

  /** A failure names the first inconsistent group in `nslOrder`. */
  lemma {:induction false} StationsFailsAtFirst(groups: map<Nsl, seq<Channel>>, nslOrder: seq<Nsl>, policy: Policy)
    requires Listed(groups, nslOrder)
    ensures var r := Stations(groups, nslOrder, policy);
      r.Failure? ==> exists i :: 0 <= i < |nslOrder| && r.error == InconsistentChannelLocations(nslOrder[i])
                                 && !Consistent(groups[nslOrder[i]])
                                 && forall j :: 0 <= j < i ==> Consistent(groups[nslOrder[j]])
    decreases |nslOrder|
  {
    var r := Stations(groups, nslOrder, policy);
    if |nslOrder| > 0 && r.Failure? {
      if Consistent(groups[nslOrder[0]]) {
        var tail := nslOrder[1..];
        var rest := Stations(groups, tail, policy);
        assert rest.Failure? && r.error == rest.error;
        StationsFailsAtFirst(groups, tail, policy);
        var i :| 0 <= i < |tail| && rest.error == InconsistentChannelLocations(tail[i])
                 && !Consistent(groups[tail[i]])
                 && forall j :: 0 <= j < i ==> Consistent(groups[tail[j]]);
        assert nslOrder[i + 1] == tail[i];
        forall j | 0 <= j < i + 1 ensures Consistent(groups[nslOrder[j]]) {
          if j > 0 {
            assert nslOrder[j] == tail[j - 1];
          }
        }
      } else {
        assert r.error == InconsistentChannelLocations(nslOrder[0]);
      }
    }
  }

  /** Every group the policy keeps is summarised in a successful result. */
  lemma {:induction false} StationsKeepsListed(groups: map<Nsl, seq<Channel>>, nslOrder: seq<Nsl>, policy: Policy)
    requires Listed(groups, nslOrder)
    ensures var r := Stations(groups, nslOrder, policy);
      r.Success? ==>
        forall i :: (0 <= i < |nslOrder| && (policy == OtherPolicy || Consistent(groups[nslOrder[i]])))
          ==> Summarize(nslOrder[i], groups[nslOrder[i]]) in r.value
    decreases |nslOrder|
  {
    var r := Stations(groups, nslOrder, policy);
    if |nslOrder| > 0 && r.Success? {
      var g := nslOrder[0];
      var tail := nslOrder[1..];
      var rest := Stations(groups, tail, policy);
      assert rest.Success?;
      var kept := if !Consistent(groups[g]) && policy == Warn then [] else [Summarize(g, groups[g])];
      assert r.value == kept + rest.value;
      StationsKeepsListed(groups, tail, policy);
      forall i | 0 <= i < |nslOrder| && (policy == OtherPolicy || Consistent(groups[nslOrder[i]]))
        ensures Summarize(nslOrder[i], groups[nslOrder[i]]) in r.value
      {
        if i > 0 {
          assert nslOrder[i] == tail[i - 1];
          assert Summarize(tail[i - 1], groups[tail[i - 1]]) in rest.value;
        } else {
          assert kept == [Summarize(g, groups[g])];
        }
      }
    }
  }

  /** Under a policy other than `'raise'` or `'warn'`, every group becomes exactly one station. */
  lemma {:induction false} StationsOtherPolicyKeepsAll(groups: map<Nsl, seq<Channel>>, nslOrder: seq<Nsl>)
    requires Listed(groups, nslOrder)
    ensures var r := Stations(groups, nslOrder, OtherPolicy);
      r.Success? && |r.value| == |nslOrder|
    decreases |nslOrder|
  {
    if |nslOrder| > 0 {
      StationsOtherPolicyKeepsAll(groups, nslOrder[1..]);
    }
  }

  /** When `nslOrder` lists exactly the non-empty groups, every group is listed. */
  lemma ListedAllGroups(groups: map<Nsl, seq<Channel>>, nslOrder: seq<Nsl>)
    requires forall g :: g in groups ==> |groups[g]| > 0
    requires forall g :: g in nslOrder <==> g in groups
    ensures Listed(groups, nslOrder)
  {
    forall i | 0 <= i < |nslOrder| ensures nslOrder[i] in groups {
      assert nslOrder[i] in nslOrder;
    }
  }

  /** When `nslOrder` lists exactly the groups, an inconsistent group is one at some position. */
  lemma ListedInconsistency(groups: map<Nsl, seq<Channel>>, nslOrder: seq<Nsl>)
    requires Listed(groups, nslOrder)
    requires forall g :: g in nslOrder <==> g in groups
    ensures (exists i :: 0 <= i < |nslOrder| && !Consistent(groups[nslOrder[i]]))
            <==> exists g :: g in groups && !Consistent(groups[g])
  {
    if exists g :: g in groups && !Consistent(groups[g]) {
      var g :| g in groups && !Consistent(groups[g]);
      var i :| 0 <= i < |nslOrder| && nslOrder[i] == g;
    }
  }

  /** Every station produced summarises the group it names, which the policy keeps. */
  lemma {:induction false} StationsSummariseTheirGroups(groups: map<Nsl, seq<Channel>>, nslOrder: seq<Nsl>, policy: Policy)
    requires Listed(groups, nslOrder)
    ensures var r := Stations(groups, nslOrder, policy);
      r.Success? ==> forall s :: s in r.value ==>
        (s.nsl in nslOrder && s.nsl in groups && |groups[s.nsl]| > 0 && s == Summarize(s.nsl, groups[s.nsl])
         && (policy != OtherPolicy ==> Consistent(groups[s.nsl])))
    decreases |nslOrder|
  {
    var r := Stations(groups, nslOrder, policy);
    if |nslOrder| > 0 && r.Success? {
      var g := nslOrder[0];
      var tail := nslOrder[1..];
      var rest := Stations(groups, tail, policy);
      assert rest.Success?;
      var kept := if !Consistent(groups[g]) && policy == Warn then [] else [Summarize(g, groups[g])];
      assert r.value == kept + rest.value;
      assert forall x :: x in tail ==> x in nslOrder;
      StationsSummariseTheirGroups(groups, tail, policy);
    }
  }

  /** No two stations name the same group. */
  predicate DistinctNames(ss: seq<Station>) {
    forall i, j :: 0 <= i < j < |ss| ==> ss[i].nsl != ss[j].nsl
  }

  /** Prepending a station whose group no later station names keeps the names distinct. */
  lemma PrependName(s: Station, rest: seq<Station>)
    requires DistinctNames(rest)
    requires forall x :: x in rest ==> x.nsl != s.nsl
    ensures DistinctNames([s] + rest)
  {
    forall i, j | 0 <= i < j < |[s] + rest| ensures ([s] + rest)[i].nsl != ([s] + rest)[j].nsl {
      assert ([s] + rest)[j] == rest[j - 1] && rest[j - 1] in rest;
    }
  }

  /** Listing each group once, no two stations of a successful result name the same group. */
  lemma {:induction false} StationsDistinctNames(groups: map<Nsl, seq<Channel>>, nslOrder: seq<Nsl>, policy: Policy)
    requires Listed(groups, nslOrder)
    requires Distinct(nslOrder)
    ensures var r := Stations(groups, nslOrder, policy);
      r.Success? ==> DistinctNames(r.value)
    decreases |nslOrder|
  {
    var r := Stations(groups, nslOrder, policy);
    if |nslOrder| > 0 && r.Success? {
      var g := nslOrder[0];
      var tail := nslOrder[1..];
      var rest := Stations(groups, tail, policy);
      assert rest.Success?;
      assert forall i :: 0 <= i < |tail| ==> tail[i] == nslOrder[i + 1];
      StationsDistinctNames(groups, tail, policy);
      if !(!Consistent(groups[g]) && policy == Warn) {
        assert r.value == [Summarize(g, groups[g])] + rest.value;
        StationsSummariseTheirGroups(groups, tail, policy);
        assert g !in tail;
        PrependName(Summarize(g, groups[g]), rest.value);
      }
    }
  }


  /**
   What the station loop promises about its outcome `r` over `groups`: it
   fails exactly when the policy is to raise and some group is inconsistent,
   naming an inconsistent group;
   otherwise every station summarises its own group, which is consistent
   unless the policy lets inconsistencies through, every group the policy
   keeps has its station, and no group has two.
   */
  predicate StationsOf(groups: map<Nsl, seq<Channel>>, policy: Policy, r: Result<seq<Station>, StationError>)
    requires forall g :: g in groups ==> |groups[g]| > 0
  {
    && (r.Failure? <==> policy == Raise && exists g :: g in groups && !Consistent(groups[g]))
    && (r.Failure? ==> r.error.nsl in groups && !Consistent(groups[r.error.nsl]))
    && (r.Success? ==> forall s :: s in r.value ==>
          (s.nsl in groups && s == Summarize(s.nsl, groups[s.nsl])
           && (policy != OtherPolicy ==> Consistent(groups[s.nsl]))))
    && (r.Success? ==> forall g :: (g in groups && (policy == OtherPolicy || Consistent(groups[g]))
          ==> Summarize(g, groups[g]) in r.value))
    && (r.Success? ==> DistinctNames(r.value))
  }

  /** The station loop over exactly the non-empty groups, stated per group. */
  lemma StationsOverGroups(groups: map<Nsl, seq<Channel>>, nslOrder: seq<Nsl>, policy: Policy)
    requires forall g :: g in groups ==> |groups[g]| > 0
    requires forall g :: g in nslOrder <==> g in groups
    requires Distinct(nslOrder)
    ensures Listed(groups, nslOrder)
    ensures StationsOf(groups, policy, Stations(groups, nslOrder, policy))
  {
    ListedAllGroups(groups, nslOrder);
    ListedInconsistency(groups, nslOrder);
    StationsSummariseTheirGroups(groups, nslOrder, policy);
    StationsKeepsListed(groups, nslOrder, policy);
    StationsDistinctNames(groups, nslOrder, policy);
    StationsFailsAtFirst(groups, nslOrder, policy);
    var r := Stations(groups, nslOrder, policy);
    forall g | r.Success? && g in groups && (policy == OtherPolicy || Consistent(groups[g]))
      ensures Summarize(g, groups[g]) in r.value
    {
      assert g in nslOrder;
      var i :| 0 <= i < |nslOrder| && nslOrder[i] == g;
    }
  }

  /**
   `get_pyrocko_stations` with the evident intent of its policy: group the
   channels spanning the selected query, visiting every code of the index once
   in `keyOrder` (the order of `self._content.keys()`), and summarise each group
   once in `nslOrder` (the order of `by_nsl.iteritems()`). The index is one built
   by `add_channel`, hence valid.
   */
  function GetPyrockoStations(m: MetaData, keyOrder: seq<Nslc>, nslOrder: seq<Nsl>,
                              time: Option<int>, timespan: Option<Timespan>, policy: Policy)
    : (r: Result<seq<Station>, StationError>)
    requires Valid(m)
    requires forall k :: k in keyOrder <==> k in m.content
    requires Distinct(keyOrder)
    requires forall g :: g in nslOrder <==> g in GroupByStation(m, keyOrder, SelectQuery(time, timespan))
    requires Distinct(nslOrder)
    ensures GroupsOf(m, SelectQuery(time, timespan), GroupByStation(m, keyOrder, SelectQuery(time, timespan)))
    ensures StationsOf(GroupByStation(m, keyOrder, SelectQuery(time, timespan)), policy, r)
  {
    var groups := GroupByStation(m, keyOrder, SelectQuery(time, timespan));
    GroupsOfIndex(m, keyOrder, SelectQuery(time, timespan));
    StationsOverGroups(groups, nslOrder, policy);
    Stations(groups, nslOrder, policy)
  }

  /**
   What the code as written promises about its outcome `r` over `groups`: every
   station is the summary of the group it names, every group has its station,
   and no group has two.
   */
  predicate AsWrittenOf(groups: map<Nsl, seq<Channel>>, r: seq<Station>)
    requires forall g :: g in groups ==> |groups[g]| > 0
  {
    && (forall s :: s in r ==> s.nsl in groups && s == Summarize(s.nsl, groups[s.nsl]))
    && (forall g :: g in groups ==> Summarize(g, groups[g]) in r)
    && DistinctNames(r)
  }

  /** The loop as written, iterating once over exactly the non-empty groups. */
  lemma AsWrittenOverGroups(groups: map<Nsl, seq<Channel>>, nslOrder: seq<Nsl>, policy: Policy)
    requires forall g :: g in groups ==> |groups[g]| > 0
    requires forall g :: g in nslOrder <==> g in groups
    requires Distinct(nslOrder)
    ensures Listed(groups, nslOrder)
    ensures AsWrittenOf(groups, StationsAsWritten(groups, nslOrder, policy))
  {
    ListedAllGroups(groups, nslOrder);
    var r := StationsAsWritten(groups, nslOrder, policy);
    forall s | s in r ensures s.nsl in groups && s == Summarize(s.nsl, groups[s.nsl]) {
      var i :| 0 <= i < |r| && r[i] == s;
    }
    forall g | g in groups ensures Summarize(g, groups[g]) in r {
      assert g in nslOrder;
      var i :| 0 <= i < |nslOrder| && nslOrder[i] == g;
      assert r[i] in r;
    }
  }

  /** `get_pyrocko_stations` as written: every group becomes exactly one station, its summary. */
  function GetPyrockoStationsAsWritten(m: MetaData, keyOrder: seq<Nslc>, nslOrder: seq<Nsl>,
                                       time: Option<int>, timespan: Option<Timespan>, policy: Policy)
    : (r: seq<Station>)
    requires Valid(m)
    requires forall k :: k in keyOrder <==> k in m.content
    requires Distinct(keyOrder)
    requires forall g :: g in nslOrder <==> g in GroupByStation(m, keyOrder, SelectQuery(time, timespan))
    requires Distinct(nslOrder)
    ensures GroupsOf(m, SelectQuery(time, timespan), GroupByStation(m, keyOrder, SelectQuery(time, timespan)))
    ensures AsWrittenOf(GroupByStation(m, keyOrder, SelectQuery(time, timespan)), r)
  {
    var groups := GroupByStation(m, keyOrder, SelectQuery(time, timespan));
    GroupsOfIndex(m, keyOrder, SelectQuery(time, timespan));
    AsWrittenOverGroups(groups, nslOrder, policy);
    StationsAsWritten(groups, nslOrder, policy)
  }

  /**
   The discrepancy: two channels of one station whose elevations differ. Under
   `'raise'` the code as written returns a station at the mean elevation, where
   the evident intent raises `InconsistentChannelLocations`.
   */
  lemma InconsistentGroupUnderRaise()
    ensures var g: Nsl := ("XX", "STA", "");
      var response := PoleZeroResponse([], [], 1.0);
      var c1 := Channel(("XX", "STA", "", "HHZ"), None, None, 0.0, 0.0, 0.0, 0.0, -90.0, 0.0, "M/S", "COUNTS", response);
      var c2 := Channel(("XX", "STA", "", "HHN"), None, None, 0.0, 0.0, 2.0, 0.0, 0.0, 0.0, "M/S", "COUNTS", response);
      var groups := map[g := [c1, c2]];
      && |StationsAsWritten(groups, [g], Raise)| == 1
      && StationsAsWritten(groups, [g], Raise)[0].elevation == 1.0
      && Stations(groups, [g], Raise) == Failure(InconsistentChannelLocations(g))
  {
    var g: Nsl := ("XX", "STA", "");
    var response := PoleZeroResponse([], [], 1.0);
    var c1 := Channel(("XX", "STA", "", "HHZ"), None, None, 0.0, 0.0, 0.0, 0.0, -90.0, 0.0, "M/S", "COUNTS", response);
    var c2 := Channel(("XX", "STA", "", "HHN"), None, None, 0.0, 0.0, 2.0, 0.0, 0.0, 0.0, "M/S", "COUNTS", response);
    var cs := [c1, c2];
    assert Elevations(cs)[1] != Elevations(cs)[0];
    assert Elevations(cs) == [0.0, 2.0];
    assert Sum([2.0]) == 2.0 + Sum([]);
    assert Sum([0.0, 2.0]) == 0.0 + Sum([2.0]);
  }
}

=== FILE: text.dfy ===
/**
 The byte-string operations the comment parser relies on: `split(':', 1)`,
 `strip(chars)`, `lower()` and `startswith`, with ASCII semantics.
 */
module Text {

  /** The characters `str.strip()` removes when called without an argument. */
  const Whitespace: set<char> := {' ', '\t', '\n', '\r', 11 as char, 12 as char}

  /** `s.split(sep, 1)`: the whole string when `sep` is absent, else the parts around its first occurrence. */
  function SplitOnce(s: string, sep: char): (r: seq<string>)
    ensures |r| == 1 || |r| == 2
    ensures |r| == 1 <==> sep !in s
    ensures |r| == 1 ==> r[0] == s
    ensures |r| == 2 ==> sep !in r[0] && s == r[0] + [sep] + r[1]
    decreases |s|
  {
    if |s| == 0 then [s]
    else if s[0] == sep then ["", s[1..]]
    else
      var rest := SplitOnce(s[1..], sep);
      if |rest| == 1 then [s]
      else
        assert s == [s[0]] + s[1..];
        [[s[0]] + rest[0], rest[1]]
  }

  /** The split happens at the first separator: a separator-free head is recovered exactly. */
  lemma SplitOnceAtFirst(head: string, sep: char, tail: string)
    requires sep !in head
    ensures SplitOnce(head + [sep] + tail, sep) == [head, tail]
  {
    var s := head + [sep] + tail;
    var r := SplitOnce(s, sep);
    assert s[|head|] == sep;
    assert forall j :: 0 <= j < |head| ==> s[j] == head[j];
    assert forall j :: 0 <= j < |r[0]| ==> s[j] == r[0][j];
    assert s[|r[0]|] == sep;
    assert r[0] == s[..|head|] == head;
    assert r[1] == s[|head| + 1..] == tail;
  }

  /** Number of leading characters of `s` that belong to `cs`. */
  function Leading(s: string, cs: set<char>): (n: nat)
    ensures n <= |s|
    ensures forall k :: 0 <= k < n ==> s[k] in cs
    ensures n < |s| ==> s[n] !in cs
    decreases |s|
  {
    if |s| == 0 || s[0] !in cs then 0 else 1 + Leading(s[1..], cs)
  }

  /** Number of trailing characters of `s` that belong to `cs`. */
  function Trailing(s: string, cs: set<char>): (n: nat)
    ensures n <= |s|
    ensures forall k :: |s| - n <= k < |s| ==> s[k] in cs
    ensures n < |s| ==> s[|s| - 1 - n] !in cs
    decreases |s|
  {
    if |s| == 0 || s[|s| - 1] !in cs then 0 else 1 + Trailing(s[..|s| - 1], cs)
  }

  /** `s.strip(cs)`: drop the longest prefix and then the longest suffix made of characters in `cs`. */
  function Strip(s: string, cs: set<char>): (r: string)
    ensures |r| > 0 ==> r[0] !in cs && r[|r| - 1] !in cs
    ensures var i := Leading(s, cs);
              i + |r| <= |s| && r == s[i..i + |r|]
              && (forall k :: i + |r| <= k < |s| ==> s[k] in cs)
  {
    var i := Leading(s, cs);
    var rest := s[i..];
    var r := rest[..|rest| - Trailing(rest, cs)];
    assert r == s[i..i + |r|];
    r
  }

  /** Stripping recovers the core of a string padded on both sides by characters of `cs`. */
  lemma StripPadded(left: string, core: string, right: string, cs: set<char>)
    requires forall k :: 0 <= k < |left| ==> left[k] in cs
    requires forall k :: 0 <= k < |right| ==> right[k] in cs
    requires |core| > 0 ==> core[0] !in cs && core[|core| - 1] !in cs
    ensures Strip(left + core + right, cs) == core
  {
    var s := left + core + right;
    var i := Leading(s, cs);
    if |core| == 0 {
      assert forall k :: 0 <= k < |s| ==> s[k] in cs by {
        forall k | 0 <= k < |s| ensures s[k] in cs {
          if k < |left| { assert s[k] == left[k]; } else { assert s[k] == right[k - |left|]; }
        }
      }
      assert i == |s|;
    } else {
      assert s[|left|] == core[0];
      assert forall k :: 0 <= k < |left| ==> s[k] == left[k];
      assert i == |left|;
      var rest := s[i..];
      assert rest == core + right;
      var j := Trailing(rest, cs);
      assert rest[|core| - 1] == core[|core| - 1];
      assert forall k :: |core| <= k < |rest| ==> rest[k] == right[k - |core|];
      assert j == |right|;
      assert rest[..|rest| - j] == core;
    }
  }

  /** Stripping twice is the same as stripping once. */
  lemma StripIdempotent(s: string, cs: set<char>)
    ensures Strip(Strip(s, cs), cs) == Strip(s, cs)
  {
    StripPadded([], Strip(s, cs), [], cs);
    assert [] + Strip(s, cs) + [] == Strip(s, cs);
  }

  /** ASCII `lower()` of one character. */
  function LowerChar(c: char): char {
    if 'A' <= c <= 'Z' then (c as int + 32) as char else c
  }

  /** ASCII `lower()`: upper-case letters become lower-case, everything else is kept. */
  function Lower(s: string): (r: string)
    ensures |r| == |s|
    ensures forall k :: 0 <= k < |s| ==> r[k] == LowerChar(s[k])
  {
    seq(|s|, k requires 0 <= k < |s| => LowerChar(s[k]))
  }

  /** `s.startswith(p)`. */
  predicate StartsWith(s: string, p: string) {
    |p| <= |s| && s[..|p|] == p
  }

  /** Two prefixes of one string are prefixes of each other. */
  lemma StartsWithComparable(s: string, p: string, q: string)
    requires StartsWith(s, p) && StartsWith(s, q)
    requires |p| <= |q|
    ensures StartsWith(q, p)
  {
    assert q[..|p|] == s[..|q|][..|p|] == s[..|p|];
  }
}

=== FILE: wrappers.dfy ===
/**
 `Option`, which the parser chains with `:-` so that the first missing label or
 failed conversion ends the `try` block, and `Result`, the value-or-exception
 outcome of the public operations.
 */
module Wrappers {

  /** Python's `None` versus a present value; a `None` short-circuits a `:-` chain. */
  datatype Option<+T> = None | Some(value: T) {

    predicate IsFailure() {
      None?
    }

    function PropagateFailure<U>(): Option<U>
      requires None?
    {
      None
    }

    function Extract(): T
      requires Some?
    {
      value
    }
  }

  /** A returned value, or the exception an operation raises. */
  datatype Result<+R, +E> = Success(value: R) | Failure(error: E)
}
